=== FILE: README.md ===
# HttpRequestRemapper in Dafny

A Dafny model of the core of HttpRequestRemapper, a Go package with two jobs:

- It builds a canonical JSON-shaped snapshot of an HTTP request, called the *root*. The root has exactly nine keys: `method`, `path`, `host`, `headers`, `headers_all`, `query`, `query_all`, `cookies` and `body`.
- It reshapes values out of that root with a recursive *template walk*. String leaves of a template are read as JSONPath expressions (`$…`), as the builtins `uuid()` and `now()`, or as literals.

The model also covers the two helpers underneath:

- Bounded capture of the single-read request body. The captured bytes are put back so the body can be read again.
- The JSON decode adapter.

Modules, one file each:

| module | file | models |
|---|---|---|
| `Wrappers` | wrappers.dfy | `Option` and `Result` |
| `Int64` | int64.dfy | Go's `int64` range and its wrap-around |
| `JsonValue` | json_value.dfy | the closed JSON value, the decoder type, `[]string` as a JSON array |
| `Text` | text.dfy | `strings.TrimSpace` (Go's `unicode.IsSpace` set), `HasPrefix`, ASCII `ToLower`, the byte white space of `bytes.TrimSpace` |
| `JsonAdapter` | json.dfy | json.go |
| `Remap` | remap.dfy | remap.go: `EvalJSONPath` and `ApplyTemplate` |
| `TemplateFacts` | template_facts.dfy | properties of the template walk |
| `HttpRequest` | http_request.dfy | http_request.go: capture, header/query/cookie maps, the root |
| `RequestApi` | request_api.dfy | request_api.go: cap defaulting and the request-bound entry points |
| `Scenarios` | scenarios.dfy | two tests of remap_test.go in full, the third as the entries of its root |

External collaborators are parameters:

- The JSONPath engine (`jsonpath.Retrieve`) is an `Engine`: `(expr, doc) -> Result<seq<Json>, string>`.
- `encoding/json` is a `Decoder`: `bytes -> Option<Json>`.
- The `now()` producer is `Builtins.now: Option<() -> string>`.
- The wall-clock fallback of `now()` is a `clock: string` parameter.
- The request is a record with these fields:
  - method, host
  - an optional URL holding the path and the already-parsed query
  - the header map
  - the sequence of cookies `r.Cookies()` yields
  - the replaceable body slot.
- A body stream is `Stream(data, fails)`. It yields `data`, then ends or, if `fails`, reports a read error.

With a cap of 0 the code returns `(true, empty, true)` and leaves the body slot untouched (http_request.go:21-23); the slot is replaced only after a read. `HttpRequest.CaptureRequestBody` states exactly that.

## Model

| member | source | states |
|---|---|---|
| `Remap.EvalJSONPath` | remap.go:54-66 | An engine error gives null. A single match comes back unwrapped. Every match list that is not ambiguous can be read back from the result with `Expand`. |
| `Remap.CollapseRoundTrip` | remap.go:59-65 | Collapsing 0/1/many results loses information exactly on the ambiguous lists: one match that is null, or one match that is itself an array of at least two values. |
| `Remap.CollapseConflates` | remap.go:59-65 | The two collisions, concretely. One `[a, b]` match (the shape of a `query_all` entry) and the two matches `a, b` give the same result. One null match and no match give the same result. |
| `Remap.ApplyTemplate` | remap.go:15-52 | An object template yields an object with the same keys, each member the walk applied to the template's member. An array template yields an array of the same length, item by item in order. Numbers, booleans and null come back unchanged. |
| `TemplateFacts.ClassifyCases` | remap.go:30-48 | The class of a string leaf is decided on its trimmed text. Blank holds exactly when the string is all white space. `uuid()`, `now()` and `$` expressions are each characterised both ways. The evaluator receives the trimmed text. Literal holds exactly when none of the other classes does. |
| `TemplateFacts.ApplyStringDispatch` | remap.go:29-48 | Blank text gives `""`. Trimmed `uuid()` gives the UUID. Trimmed `now()` gives the producer's value, or the clock when there is no producer. A `$`-prefixed trimmed text gives `EvalJSONPath` of the trimmed text. A literal gives back the original, untrimmed string. |
| `TemplateFacts.ClassifyPadded` | remap.go:30 | Surrounding white space never changes the class of a trimmed text. |
| `TemplateFacts.ApplyTemplatePreservesShape` | remap.go:15-52 | The output has the template's shape all the way down: same keys, same lengths. Only string leaves may change, and every other leaf is unchanged. |
| `TemplateFacts.ApplyTemplateLiteralsOnly` | remap.go:15-52 | A template whose string leaves are all literals evaluates to itself. |
| `TemplateFacts.ApplyTemplateWithoutStrings` | remap.go:15-52 | A template with no string leaves evaluates to itself, whatever the root. |
| `TemplateFacts.ApplyTemplateIgnoresRoot` | remap.go:15-52 | Without JSONPath expressions the output does not depend on the root or the engine. |
| `TemplateFacts.ApplyTemplateUuidPadded` | remap.go:30-37 | `uuid()` surrounded by any white space gives the builtin UUID. |
| `TemplateFacts.ApplyTemplateNowPadded` | remap.go:38-43 | `now()` surrounded by any white space gives the producer's value, or the clock without a producer. |
| `TemplateFacts.ApplyTemplateExpressionPadded` | remap.go:45-47 | A padded `$` expression is evaluated without its padding. |
| `TemplateFacts.ApplyTemplateLiteralKeepsPadding` | remap.go:48 | A padded literal comes back with its padding. |
| `Text.TrimSpace` | remap.go:30 | The result has no white space at either end, it is no longer than the input, and it is empty exactly when the input is all white space. |
| `Text.TrimSpaceIsInfix` | remap.go:30 | For every input, the trimmed text is an infix of it with only white space before and after it. Together with `Text.TrimSpace` this fixes the result. |
| `Text.TrimSpacePadded` | remap.go:30 | Trimming removes exactly the surrounding white space of a trimmed core. |
| `JsonAdapter.TryParseJSON` | json.go:8-17 | Blank input gives no value. A value is returned exactly when some byte is not white space and the decoder succeeds, and it is the decoder's value, JSON null included. |
| `JsonAdapter.ParseJSONObjectOrEmpty` | json.go:19-29 | A decoded object comes back as is. A failed parse gives the empty object. A non-empty result is always the decoder's object. |
| `HttpRequest.ReadLimited` | http_request.go:25-26 | Reading under a limit fails exactly when the limit is positive and the stream fails before the limit is reached. Otherwise it yields the first `min(len, limit)` bytes, or nothing for a limit of 0 or less. |
| `HttpRequest.CaptureRequestBody` | http_request.go:17-40 | No request or no body: not present, empty, slot untouched. A cap of 0: present, empty, truncated, slot untouched. A read error: present, empty, not truncated, slot emptied. Otherwise the body is the first `min(len, cap)` bytes, truncated exactly when the stream held more, and the slot holds exactly those bytes. The body never exceeds the cap. |
| `HttpRequest.CaptureRequestBodyAsWritten` | http_request.go:25-39 | With `maxBytes + 1` wrapped as an `int64`: below the maximum cap it agrees with `CaptureRequestBody`. At the maximum cap every present body is reported empty and untruncated, and the slot is emptied. |
| `HttpRequest.CaptureAsWrittenLosesBody` | http_request.go:25-38 | At cap 9223372036854775807 a one-byte body is returned whole by the corrected capture and lost by the capture as written. |
| `HttpRequest.CaptureTwice` | http_request.go:33-39 | After a capture with a positive cap, a second capture with a positive cap of at least the captured length returns the same bytes, untruncated, and leaves the request as the first left it. |
| `HttpRequest.HeaderMaps` | http_request.go:42-54 | The first-value and all-values maps both have exactly the lower-cased names of the headers that have a value. Each holds the first value or all values of its header, and every name in them is lower-case. |
| `HttpRequest.QueryMaps` | http_request.go:56-71 | Both maps have the same keys: the query names with a value, kept verbatim. Each holds the first value or all values. A nil URL gives empty maps. |
| `HttpRequest.CookieJar` | http_request.go:78-84 | A name is in the map exactly when some non-nil cookie has it. Its value is the value of the last such cookie. |
| `HttpRequest.CookieMap` | http_request.go:73-85 | A nil request gives the empty map. Otherwise the map follows the same last-one-wins rule over the request's cookies. |
| `HttpRequest.RootBody` | http_request.go:106-111 | The root's body is the decoded value whenever `TryParseJSON` succeeds, arrays, scalars and JSON null included, and `{}` otherwise. |
| `HttpRequest.RequestRoot` | http_request.go:89-124 | The root has exactly the nine keys. A nil request gives blank strings and empty maps. Otherwise it holds the method, host, URL path (blank without a URL), the header, query and cookie maps, and the body from the given bytes. |
| `HttpRequest.RootHeadersLowerCase` | http_request.go:45-51 | In the root a header is found under its lower-cased name, and a name with an upper-case letter is never present. |
| `HttpRequest.RootBodyVersusObjectOrEmpty` | http_request.go:106-111 | The root's body equals `ParseJSONObjectOrEmpty` of the same bytes exactly when the bytes do not decode to a non-object. |
| `HttpRequest.RequestRootIgnoresBodySlot` | http_request.go:89-124 | The root never reads the body slot, so replacing the slot does not change it. |
| `HttpRequest.CaptureKeepsRoot` | request_api.go:29-38 | Capturing the body does not change the root of the request. |
| `Int64.Wrap` | http_request.go:25 | The `int64` result of a sum: in range, equal to the sum when that is in range, and congruent to it modulo 2^64. |
| `RequestApi.MaxBodyBytesOrDefault` | request_api.go:13-18 | A positive configured cap is used as is. Any other cap falls back to 1 MiB. The result is always a positive `int64`. |
| `RequestApi.EffectiveCap` | request_api.go:29-35 | Nil options act as zero options and get 1 MiB. Non-nil options get their own `maxBodyBytesOrDefault`. The cap is always positive, which `CaptureRequestBody` requires. |
| `RequestApi.RootFromRequest` | request_api.go:29-38 | The root is built from exactly the captured bytes, at most the cap. The capture's present, body, truncated and request come back unchanged. A request with a body is left holding exactly the captured bytes. |
| `RequestApi.EvalJSONPathFromRequest` | request_api.go:42-45 | The expression is evaluated against the root of the request as it arrived, built from the bytes captured under the effective cap. The request is left re-readable as those bytes. |
| `RequestApi.ApplyTemplateFromRequest` | request_api.go:54-57 | The template is applied against that same root, and the request is left the same way. |
| `RequestApi.TemplateWithoutExpressionsIgnoresRequest` | request_api.go:54-57 | A template without JSONPath expressions gives the same output for every request, option, decoder and engine. |
| `Scenarios.TemplateScenario` | remap_test.go:11-35 | For the test's root and template, `$.headers.x`, `$.cookies.sid` and `uuid()` give `"1"`, `"abc"` and `"u-1"`, under a member-path stand-in for the engine. |
| `Scenarios.CaptureScenario` | remap_test.go:38-53 | "hello" under cap 3 gives "hel" truncated. A second capture under cap 10 gives "hel" untruncated. |
| `Scenarios.ScenarioRoot` | remap_test.go:55-77 | For the test's request the root holds `x-test: abc` and `cookie: sid=123` under headers, because adding the cookie writes it into the header map. It holds `sid: 123` under cookies, `q: 1` under query, `q: [1, 2]` under query_all, and the decoded `{"a": 1}` under body. |

## Left out

- The JSONPath engine's own semantics (`jsonpath.Retrieve`). It is a parameter. The scenarios use a stand-in that only follows member paths `$.a.b`.
- The request test's five JSONPath lookups (remap_test.go:60-76) are proved only as the matching entries of the root (`Scenarios.ScenarioRoot`), not as lookups through an engine.
- The wall-clock fallback of `now()` (`time.Now().UTC().Format(RFC3339Nano)`). It is the `clock` parameter.
- Repeated `now()` leaves. The producer is a pure `() -> string` and the clock one `clock` value, so every `now()` leaf of one walk gets the same string. The Go code calls `builtins.Now()` or `time.Now()` once per `now()` leaf, in map-iteration order for objects, so a stateful producer or the real clock can give different leaves different values.
- `encoding/json` decoding and `float64` number semantics. The decoder is a parameter, and numbers keep only their literal text.
- `u.Query()` parsing, `r.Cookies()` header parsing and URL parsing. The request record holds their results.
- The link between the `Cookie` header and `r.Cookies()`. The request record holds the header map and the parsed cookies side by side, and the model does not derive one from the other.
- The mechanics of `io.LimitReader`, `io.ReadAll` and `io.NopCloser`. A limited read is `ReadLimited`, and the reinstalled body is a fresh stream of the kept bytes. The partial data `io.ReadAll` returns alongside an error is discarded by the code, so it is not modelled.
- `strings.ToLower` beyond ASCII. Header names are lower-cased letter by letter for 'A'..'Z' only.
- `bytes.TrimSpace` beyond ASCII. Only the ASCII white-space bytes are treated as blank, not multi-byte UTF-8 white space.
- Go's map iteration order. `HttpRequest.HeaderMaps` requires that distinct header names with values stay distinct once lower-cased. Otherwise the Go result depends on iteration order.
- Go's dynamic types inside templates. A `[]string` or `map[string]string` value falls into the default branch and is returned without being walked. A closed JSON union has no such values.
- HttpRequest.CaptureRequestBody: requires `0 <= maxBytes`. For a negative cap the Go code panics at `b[:maxBytes]` once a body is read, and a panic is not modelled. Every cap `RequestApi` passes is positive.
- RequestApi.RootFromRequest, RequestApi.EvalJSONPathFromRequest and RequestApi.ApplyTemplateFromRequest: built on the corrected `HttpRequest.CaptureRequestBody`, not on the capture as written. With `MaxBodyBytes = 9223372036854775807` they keep a body that the Go code loses (see Findings).
- Closing of the original body stream and concurrent use of one request. Neither is modelled.

## Findings

| source | as written | input that shows it | evidently intended | confidence | as-written member | corrected member |
|---|---|---|---|---|---|---|
| http_request.go:25 | `io.LimitReader(r.Body, maxBytes+1)` computes `maxBytes+1` in `int64`, so at `maxBytes = MaxInt64` the limit wraps to `MinInt64` and nothing is read. | `maxBytes = 9223372036854775807` with a one-byte body: the result is empty and not truncated, and the body slot is replaced by an empty stream, so the byte is lost. | Read up to one byte past the cap. With the maximum cap every body fits, so the whole body is returned and reinstalled. | not executed | `HttpRequest.CaptureAsWrittenLosesBody` | `HttpRequest.CaptureRequestBody` |

`HttpRequest.CaptureRequestBodyAsWritten` is the capture exactly as written. `HttpRequest.CaptureAsWrittenLosesBody` shows the lost byte against the corrected capture. The rest of the model uses the corrected `HttpRequest.CaptureRequestBody`. Its limit is the unbounded `maxBytes + 1`, so its contract holds up to the maximum `int64` cap.

=== FILE: http_request.dfy ===
/** http_request.go: bounded capture of the request body with re-installation
    of the captured bytes, the first-value / all-values maps of headers and
    query parameters, the cookie map, and the nine-key canonical root. */
module HttpRequest {
  import opened Wrappers
  import opened JsonValue
  import opened Text
  import opened JsonAdapter
  import Int64

  /** A request body stream: it yields `data`, then ends cleanly or, when
      `fails`, with a read error. */
  datatype Stream = Stream(data: seq<byte>, fails: bool)

  datatype Cookie = Cookie(name: string, value: string)

  /** The parts of a `*url.URL` the core reads: the path and the parsed query
      string (`u.Query()`, name to values in order). */
  datatype Url = Url(path: string, query: map<string, seq<string>>)

  /** The parts of an `*http.Request` the core reads (`verb` is `r.Method`). `cookies` is what
      `r.Cookies()` yields, in order, `None` standing for a nil entry; `body`
      is the replaceable body slot, `None` for a nil body. */
  datatype Request = Request(
    verb: string,
    host: string,
    url: Option<Url>,
    header: map<string, seq<string>>,
    cookies: seq<Option<Cookie>>,
    body: Option<Stream>)

  /** What `CaptureRequestBody` returns, together with the request as the
      call leaves it. */
  datatype Capture = Capture(present: bool, body: seq<byte>, truncated: bool, request: Option<Request>)

  function Min(a: int, b: int): int {
    if a <= b then a else b
  }

  /** `io.ReadAll(io.LimitReader(s, limit))`, `None` for a read error. A limit
      that is not positive reads nothing; otherwise reading stops after
      `limit` bytes without touching the stream again, so the stream's error
      is met only when it holds fewer than `limit` bytes. */
  function ReadLimited(s: Stream, limit: int): (r: Option<seq<byte>>)
    ensures r.None? <==> limit > 0 && s.fails && |s.data| < limit
    ensures r.Some? ==> r.value == s.data[..Min(|s.data|, if limit < 0 then 0 else limit)]
  {
    if limit <= 0 then Some([])
    else if |s.data| >= limit then Some(s.data[..limit])
    else if s.fails then None
    else Some(s.data)
  }

  /** The body of `CaptureRequestBody`, with the limit handed to the reader
      as a parameter. */
  function CaptureWithLimit(r: Option<Request>, maxBytes: int, limit: int): Capture
    requires maxBytes >= 0
  {
    if r.None? || r.value.body.None? then Capture(false, [], false, r)
    else if maxBytes == 0 then Capture(true, [], true, r)
    else
      match ReadLimited(r.value.body.value, limit)
      case None => Capture(true, [], false, Some(r.value.(body := Some(Stream([], false)))))
      case Some(b) =>
        var truncated := |b| > maxBytes;
        var kept := if truncated then b[..maxBytes] else b;
        Capture(true, kept, truncated, Some(r.value.(body := Some(Stream(kept, false)))))
  }

  /** The stream's read error is met before `maxBytes + 1` bytes are read. */
  predicate ReadFails(s: Stream, maxBytes: int) {
    s.fails && |s.data| <= maxBytes
  }

  /** `CaptureRequestBody`, reading at most `maxBytes + 1` bytes. No body: not
      present, slot untouched. A zero cap: present, empty, truncated, slot
      untouched. A read error: present, empty, not truncated, slot emptied.
      Otherwise the first `maxBytes` bytes, truncated exactly when the stream
      held more, and the slot holds exactly those bytes afterwards. Nothing
      but the body slot of the request changes. */
  function CaptureRequestBody(r: Option<Request>, maxBytes: int): (c: Capture)
    requires 0 <= maxBytes <= Int64.MaxInt64
    ensures c.present <==> r.Some? && r.value.body.Some?
    ensures !c.present ==> c.body == [] && !c.truncated && c.request == r
    ensures |c.body| <= maxBytes
    ensures c.present && maxBytes == 0 ==> c.body == [] && c.truncated && c.request == r
    ensures c.present && maxBytes > 0 && ReadFails(r.value.body.value, maxBytes) ==>
      c.body == [] && !c.truncated && c.request == Some(r.value.(body := Some(Stream([], false))))
    ensures c.present && maxBytes > 0 && !ReadFails(r.value.body.value, maxBytes) ==>
      var data := r.value.body.value.data;
      && c.body == data[..Min(|data|, maxBytes)]
      && (c.truncated <==> |data| > maxBytes)
      && c.request == Some(r.value.(body := Some(Stream(c.body, false))))
  {
    CaptureWithLimit(r, maxBytes, maxBytes + 1)
  }

  /** `CaptureRequestBody` as written: the reader's limit is the `int64` sum
      `maxBytes + 1`, which wraps around to the minimum `int64` when
      `maxBytes` is the maximum one. Below that cap it agrees with
      CaptureRequestBody; at that cap every readable body is reported empty
      and untruncated and the slot is emptied. */
  function CaptureRequestBodyAsWritten(r: Option<Request>, maxBytes: int): (c: Capture)
    requires 0 <= maxBytes <= Int64.MaxInt64
    ensures c.present <==> r.Some? && r.value.body.Some?
    ensures maxBytes < Int64.MaxInt64 ==> c == CaptureRequestBody(r, maxBytes)
    ensures maxBytes == Int64.MaxInt64 && c.present ==>
      c.body == [] && !c.truncated && c.request == Some(r.value.(body := Some(Stream([], false))))
  {
    CaptureWithLimit(r, maxBytes, Int64.Wrap(maxBytes + 1))
  }

  /** With the maximum `int64` cap, a one-byte body that the corrected capture
      returns whole is lost by the capture as written. */
  lemma CaptureAsWrittenLosesBody()
    ensures var r := Some(Request("POST", "example.com", None, map[], [], Some(Stream([104], false))));
      && CaptureRequestBodyAsWritten(r, Int64.MaxInt64).body == []
      && CaptureRequestBody(r, Int64.MaxInt64).body == [104]
  {
  }

  /** The restored slot re-reads as the captured bytes: capturing again with a
      positive cap of at least their length returns the same bytes, not
      truncated. */
  lemma CaptureTwice(r: Option<Request>, cap1: int, cap2: int)
    requires 0 <= cap1 <= Int64.MaxInt64 && 0 < cap2 <= Int64.MaxInt64
    requires CaptureRequestBody(r, cap1).present && cap1 > 0
    requires cap2 >= |CaptureRequestBody(r, cap1).body|
    ensures var c1 := CaptureRequestBody(r, cap1);
      var c2 := CaptureRequestBody(c1.request, cap2);
      c2.present && c2.body == c1.body && !c2.truncated && c2.request == c1.request
  {
    var c1 := CaptureRequestBody(r, cap1);
    assert c1.request.value.body == Some(Stream(c1.body, false));
    assert c1.body[..Min(|c1.body|, cap2)] == c1.body;
    assert c1.request.value.(body := Some(Stream(c1.body, false))) == c1.request.value;
  }

  /** Distinct header names stay distinct once lower-cased (among those with
      values); otherwise which one wins depends on Go's map order. */
  predicate LowerKeysDistinct(h: map<string, seq<string>>) {
    forall k, k' :: k in h && k' in h && |h[k]| > 0 && |h[k']| > 0 && ToLower(k) == ToLower(k') ==> k == k'
  }

  /** A pair of maps from one multi-valued collection: the first value of each
      name, and all its values. */
  datatype FirstAll = FirstAll(first: map<string, Json>, all: map<string, Json>)

  /** The lower-cased names of the headers that have a value. */
  function LowerNames(h: map<string, seq<string>>): set<string> {
    set k | k in h && |h[k]| > 0 :: ToLower(k)
  }

  /** `HeaderMaps`: under lower-cased names, the first value and all values of
      every header that has a value, and nothing else; every resulting name is
      lower-case. */
  function HeaderMaps(h: map<string, seq<string>>): (r: FirstAll)
    requires LowerKeysDistinct(h)
    ensures r.first.Keys == LowerNames(h) && r.all.Keys == LowerNames(h)
    ensures forall k :: k in h && |h[k]| > 0 ==>
      r.first[ToLower(k)] == Str(h[k][0]) && r.all[ToLower(k)] == StringArray(h[k])
    ensures forall lk :: lk in r.first ==> ToLower(lk) == lk
  {
    LowerNamesAreLower(h);
    FirstAll(LowerFirst(h), LowerAll(h))
  }

  function LowerFirst(h: map<string, seq<string>>): (m: map<string, Json>)
    requires LowerKeysDistinct(h)
    ensures m.Keys == LowerNames(h)
    ensures forall k :: k in h && |h[k]| > 0 ==> m[ToLower(k)] == Str(h[k][0])
  {
    map k | k in h && |h[k]| > 0 :: ToLower(k) := Str(h[k][0])
  }

  function LowerAll(h: map<string, seq<string>>): (m: map<string, Json>)
    requires LowerKeysDistinct(h)
    ensures m.Keys == LowerNames(h)
    ensures forall k :: k in h && |h[k]| > 0 ==> m[ToLower(k)] == StringArray(h[k])
  {
    map k | k in h && |h[k]| > 0 :: ToLower(k) := StringArray(h[k])
  }

  lemma LowerNamesAreLower(h: map<string, seq<string>>)
    ensures forall lk :: lk in LowerNames(h) ==> ToLower(lk) == lk
  {
    forall k | k in h { ToLowerIdempotent(k); }
  }

  /** `QueryMaps`: the same pair of maps over the parsed query, names kept
      verbatim; a nil URL gives two empty maps. */
  function QueryMaps(u: Option<Url>): (r: FirstAll)
    ensures r.first.Keys == r.all.Keys
    ensures u.None? ==> r.first == map[]
    ensures u.Some? ==> r.first.Keys == set k | k in u.value.query && |u.value.query[k]| > 0
    ensures u.Some? ==> forall k :: k in r.first ==>
      r.first[k] == Str(u.value.query[k][0]) && r.all[k] == StringArray(u.value.query[k])
  {
    match u
    case None => FirstAll(map[], map[])
    case Some(url) =>
      var q := url.query;
      FirstAll(
        map k | k in q && |q[k]| > 0 :: Str(q[k][0]),
        map k | k in q && |q[k]| > 0 :: StringArray(q[k]))
  }

  /** `cs[i]` is a (non-nil) cookie named `name`. */
  predicate Names(cs: seq<Option<Cookie>>, i: int, name: string) {
    0 <= i < |cs| && cs[i].Some? && cs[i].value.name == name
  }

  /** `cs[i]` is the last cookie named `name`. */
  predicate LastNamed(cs: seq<Option<Cookie>>, i: int, name: string) {
    Names(cs, i, name) && forall j :: i < j < |cs| ==> !Names(cs, j, name)
  }

  /** The cookie loop of `CookieMap`: nil entries are skipped and a later
      cookie overwrites an earlier one of the same name. */
  function CookieJar(cs: seq<Option<Cookie>>): (m: map<string, Json>)
    ensures forall n :: n in m <==> exists i :: Names(cs, i, n)
    ensures forall n :: n in m ==> exists i :: LastNamed(cs, i, n) && m[n] == Str(cs[i].value.value)
  {
    if |cs| == 0 then map[]
    else
      var init := cs[..|cs| - 1];
      var m := CookieJar(init);
      assert forall i, n :: Names(init, i, n) ==> Names(cs, i, n);
      match cs[|cs| - 1]
      case None =>
        assert forall i, n :: Names(cs, i, n) ==> Names(init, i, n);
        assert forall i, n :: LastNamed(init, i, n) ==> LastNamed(cs, i, n);
        m
      case Some(c) =>
        var m' := m[c.name := Str(c.value)];
        assert LastNamed(cs, |cs| - 1, c.name);
        assert forall i, n :: Names(cs, i, n) && n != c.name ==> Names(init, i, n);
        assert forall i, n :: LastNamed(init, i, n) && n != c.name ==> LastNamed(cs, i, n);
        m'
  }

  /** `CookieMap`: empty for a nil request, the cookie jar otherwise. */
  function CookieMap(r: Option<Request>): (m: map<string, Json>)
    ensures r.None? ==> m == map[]
    ensures r.Some? ==> forall n :: n in m <==> exists i :: Names(r.value.cookies, i, n)
    ensures r.Some? ==> forall n :: n in m ==>
      exists i :: LastNamed(r.value.cookies, i, n) && m[n] == Str(r.value.cookies[i].value.value)
  {
    if r.None? then map[] else CookieJar(r.value.cookies)
  }

  /** The nine keys of the canonical root. */
  const RootKeys: set<string> :=
    {"method", "path", "host", "headers", "headers_all", "query", "query_all", "cookies", "body"}

  /** The `body` entry of the root: the decoded value whenever decoding
      succeeds (whatever its kind, JSON `null` included), `{}` otherwise. */
  function RootBody(bodyBytes: seq<byte>, decode: Decoder): (v: Json)
    ensures TryParseJSON(bodyBytes, decode).Some? ==> v == decode(bodyBytes).value
    ensures TryParseJSON(bodyBytes, decode).None? ==> v == Object(map[])
  {
    match TryParseJSON(bodyBytes, decode)
    case Some(parsed) => parsed
    case None => Object(map[])
  }

  /** `RequestRoot`: exactly the nine keys. A nil request gives blank strings
      and empty maps; otherwise method, host, the URL's path (blank without a
      URL), the header, query and cookie maps. The body is RootBody of the
      given bytes. */
  function RequestRoot(r: Option<Request>, bodyBytes: seq<byte>, decode: Decoder): (root: map<string, Json>)
    requires r.Some? ==> LowerKeysDistinct(r.value.header)
    ensures root.Keys == RootKeys
    ensures root["method"] == Str(if r.Some? then r.value.verb else "")
    ensures root["host"] == Str(if r.Some? then r.value.host else "")
    ensures root["path"] == Str(if r.Some? && r.value.url.Some? then r.value.url.value.path else "")
    ensures r.None? ==>
      && root["headers"] == root["headers_all"] == root["query"] == root["query_all"] == Object(map[])
      && root["cookies"] == Object(map[])
    ensures r.Some? ==> root["headers"] == Object(HeaderMaps(r.value.header).first)
    ensures r.Some? ==> root["headers_all"] == Object(HeaderMaps(r.value.header).all)
    ensures r.Some? ==> root["query"] == Object(QueryMaps(r.value.url).first)
    ensures r.Some? ==> root["query_all"] == Object(QueryMaps(r.value.url).all)
    ensures root["cookies"] == Object(CookieMap(r))
    ensures root["body"] == RootBody(bodyBytes, decode)
  {
    var headers := if r.Some? then HeaderMaps(r.value.header) else FirstAll(map[], map[]);
    var query := if r.Some? then QueryMaps(r.value.url) else FirstAll(map[], map[]);
    var verb := if r.Some? then r.value.verb else "";
    var host := if r.Some? then r.value.host else "";
    var path := if r.Some? && r.value.url.Some? then r.value.url.value.path else "";
    Assemble(verb, path, host, headers, query, CookieMap(r), RootBody(bodyBytes, decode))
  }

  /** The root's map literal. */
  function Assemble(verb: string, path: string, host: string, headers: FirstAll, query: FirstAll,
                    cookies: map<string, Json>, body: Json): (root: map<string, Json>)
    ensures root.Keys == RootKeys
    ensures root["method"] == Str(verb) && root["path"] == Str(path) && root["host"] == Str(host)
    ensures root["headers"] == Object(headers.first) && root["headers_all"] == Object(headers.all)
    ensures root["query"] == Object(query.first) && root["query_all"] == Object(query.all)
    ensures root["cookies"] == Object(cookies) && root["body"] == body
  {
    map[
      "method" := Str(verb),
      "path" := Str(path),
      "host" := Str(host),
      "headers" := Object(headers.first),
      "headers_all" := Object(headers.all),
      "query" := Object(query.first),
      "query_all" := Object(query.all),
      "cookies" := Object(cookies),
      "body" := body]
  }

  /** Header names are case-folded in the root: a header is found under its
      lower-cased name, and a name with an upper-case letter is never there. */
  lemma RootHeadersLowerCase(r: Request, bodyBytes: seq<byte>, decode: Decoder, k: string, name: string)
    requires LowerKeysDistinct(r.header)
    requires k in r.header && |r.header[k]| > 0
    requires ToLower(name) != name
    ensures var headers := RequestRoot(Some(r), bodyBytes, decode)["headers"].fields;
      && headers[ToLower(k)] == Str(r.header[k][0])
      && name !in headers
  {
  }

  /** The root's body agrees with ParseJSONObjectOrEmpty exactly when the
      bytes do not decode to a non-object: a decoded array, scalar or JSON
      `null` is kept by the root and replaced by `{}` by the object helper. */
  lemma RootBodyVersusObjectOrEmpty(bodyBytes: seq<byte>, decode: Decoder)
    ensures RootBody(bodyBytes, decode) == Object(ParseJSONObjectOrEmpty(bodyBytes, decode))
      <==> TryParseJSON(bodyBytes, decode).None? || decode(bodyBytes).value.Object?
  {
  }

  /** The root does not read the body slot: replacing it changes nothing. */
  lemma RequestRootIgnoresBodySlot(r: Request, slot: Option<Stream>, bodyBytes: seq<byte>, decode: Decoder)
    requires LowerKeysDistinct(r.header)
    ensures RequestRoot(Some(r.(body := slot)), bodyBytes, decode) == RequestRoot(Some(r), bodyBytes, decode)
  {
    assert CookieMap(Some(r.(body := slot))) == CookieMap(Some(r));
  }

  /** Capturing the body leaves the root of the request as it was. */
  lemma CaptureKeepsRoot(r: Option<Request>, maxBytes: int, bodyBytes: seq<byte>, decode: Decoder)
    requires 0 <= maxBytes <= Int64.MaxInt64
    requires r.Some? ==> LowerKeysDistinct(r.value.header)
    ensures var c := CaptureRequestBody(r, maxBytes);
      RequestRoot(c.request, bodyBytes, decode) == RequestRoot(r, bodyBytes, decode)
  {
    var c := CaptureRequestBody(r, maxBytes);
    if c.present {
      RequestRootIgnoresBodySlot(r.value, c.request.value.body, bodyBytes, decode);
    }
  }
}

=== FILE: int64.dfy ===
/** Go's `int64`: its range and the two's-complement wrap-around of its
    arithmetic, which Dafny's unbounded `int` does not have. */
module Int64 {

  const MinInt64: int := -0x8000_0000_0000_0000
  const MaxInt64: int := 0x7fff_ffff_ffff_ffff

  predicate InRange(x: int) {
    MinInt64 <= x <= MaxInt64
  }

  /** The `int64` value Go stores for the mathematical result `x`. */
  function Wrap(x: int): (r: int)
    ensures InRange(r)
    ensures InRange(x) ==> r == x
    ensures (r - x) % 0x1_0000_0000_0000_0000 == 0
  {
    (x - MinInt64) % 0x1_0000_0000_0000_0000 + MinInt64
  }
}

=== FILE: json.dfy ===
/** The decode adapter of json.go: two decision wrappers around an external
    JSON decoder, which the model receives as a `Decoder` parameter. */
module JsonAdapter {
  import opened Wrappers
  import opened JsonValue
  import opened Text

  /** `TryParseJSON`: `None` stands for Go's `(nil, false)`. Blank input never
      reaches the decoder; otherwise the decoder's verdict is returned as is,
      so a JSON `null` document is `Some(Null)`, a success. */
  function TryParseJSON(b: seq<byte>, decode: Decoder): (r: Option<Json>)
    ensures AllSpaceBytes(b) ==> r == None
    ensures r.Some? <==> (exists i :: 0 <= i < |b| && !IsSpaceByte(b[i])) && decode(b).Some?
    ensures r.Some? ==> r == decode(b)
  {
    if AllSpaceBytes(b) then None else decode(b)
  }

  /** `ParseJSONObjectOrEmpty`: the decoded object when the bytes decode to an
      object, and the empty object in every other case (blank input, decoder
      failure, array, string, number, boolean, JSON `null`). */
  function ParseJSONObjectOrEmpty(b: seq<byte>, decode: Decoder): (r: map<string, Json>)
    ensures TryParseJSON(b, decode).Some? && decode(b).value.Object? ==> r == decode(b).value.fields
    ensures TryParseJSON(b, decode).None? ==> r == map[]
    ensures r != map[] ==> decode(b) == Some(Object(r))
  {
    match TryParseJSON(b, decode)
    case Some(Object(m)) => m
    case _ => map[]
  }
}

=== FILE: json_value.dfy ===
/** The generic JSON value that parsed bodies, the canonical root, templates
    and template results all share (Go's `any` holding `map[string]any`,
    `[]any`, `string`, `float64`, `bool` or `nil`). */
module JsonValue {
  import opened Wrappers

  newtype byte = b: int | 0 <= b < 256

  /** A closed JSON union. Numbers are opaque: only their literal text is kept. */
  datatype Json =
    | Object(fields: map<string, Json>)
    | Array(items: seq<Json>)
    | Str(str: string)
    | Number(literal: string)
    | Bool(truth: bool)
    | Null

  /** The external JSON decoder (`encoding/json.Unmarshal` into `any`):
      `None` when the bytes are not a JSON document. */
  type Decoder = seq<byte> -> Option<Json>

  /** A JSON array of strings, the shape a Go `[]string` takes in a document. */
  function StringArray(vs: seq<string>): (r: Json)
    ensures r.Array? && |r.items| == |vs|
    ensures forall i :: 0 <= i < |vs| ==> r.items[i] == Str(vs[i])
  {
    Array(seq(|vs|, i requires 0 <= i < |vs| => Str(vs[i])))
  }
}

=== FILE: remap.dfy ===
/** remap.go: the recursive template walk and the 0/1/many normalisation of
    JSONPath results. The JSONPath engine is external and reaches the model
    as an `Engine` parameter. */
module Remap {
  import opened Wrappers
  import opened JsonValue
  import opened Text

  /** `jsonpath.Retrieve(expr, root)`: the ordered list of matches, or an error. */
  type Engine = (string, Json) -> Result<seq<Json>, string>

  /** `Builtins`: the value of `uuid()` and the optional producer of `now()`. */
  datatype Builtins = Builtins(uuid: string, now: Option<() -> string>)

  /** The shape `EvalJSONPath` gives an engine result list: nothing for no
      match, the match itself for one, the whole list for several. */
  function Collapse(results: seq<Json>): Json {
    if |results| == 0 then Null
    else if |results| == 1 then results[0]
    else Array(results)
  }

  /** Reads a collapsed result back as a list of matches. */
  function Expand(v: Json): seq<Json> {
    match v
    case Null => []
    case Array(xs) => if |xs| >= 2 then xs else [v]
    case _ => [v]
  }

  /** The match lists whose collapsed form is also the collapsed form of a
      different list: one match that is itself null, or itself an array of two
      or more values (a `query_all` entry, for one). */
  predicate Ambiguous(results: seq<Json>) {
    |results| == 1 && (results[0] == Null || (results[0].Array? && |results[0].items| >= 2))
  }

  /** Collapsing loses nothing except on the ambiguous lists. */
  lemma CollapseRoundTrip(results: seq<Json>)
    ensures Expand(Collapse(results)) == results <==> !Ambiguous(results)
  {
  }

  /** The two collisions: a single two-valued array match reads like two
      matches, and a single null match reads like no match at all. */
  lemma CollapseConflates(a: Json, b: Json)
    ensures Collapse([Array([a, b])]) == Collapse([a, b]) == Array([a, b])
    ensures Collapse([Null]) == Collapse([]) == Null
  {
  }

  /** `EvalJSONPath`: an engine error reads as null; otherwise the matches
      collapsed, so that a single match comes back unwrapped and every
      unambiguous list can be read back from the result. */
  function EvalJSONPath(root: Json, expr: string, engine: Engine): (r: Json)
    ensures var res := engine(expr, root);
      && (res.Failure? ==> r == Null)
      && (res.Success? && |res.value| == 1 ==> r == res.value[0])
      && (res.Success? && !Ambiguous(res.value) ==> Expand(r) == res.value)
  {
    match engine(expr, root)
    case Failure(_) => Null
    case Success(results) =>
      CollapseRoundTrip(results);
      Collapse(results)
  }

  /** How the walk reads a string leaf, decided on its trimmed text `e`:
      blank, one of the two builtins, a JSONPath expression (the trimmed text
      is what the evaluator receives), or a literal. */
  datatype Leaf = Blank | Uuid | Now | Expression(expr: string) | Literal

  function Classify(e: string): Leaf {
    if e == "" then Blank
    else if e == "uuid()" then Uuid
    else if e == "now()" then Now
    else if HasPrefix(e, "$") then Expression(e)
    else Literal
  }

  /** A template string the walk passes through unchanged. */
  predicate IsLiteral(s: string) {
    Classify(TrimSpace(s)) == Literal
  }

  /** `ApplyTemplate`: objects keep their keys and arrays their length and
      order, each member being the template applied to the corresponding
      member; numbers, booleans and null come back unchanged; a string leaf
      is dispatched on its class (see ApplyLeaf). `clock` is the RFC 3339
      UTC time the wall clock would give. */
  function ApplyTemplate(root: Json, t: Json, b: Builtins, engine: Engine, clock: string): (r: Json)
    ensures t.Object? ==> r.Object? && r.fields.Keys == t.fields.Keys
    ensures t.Object? ==> forall k :: k in t.fields ==> r.fields[k] == ApplyTemplate(root, t.fields[k], b, engine, clock)
    ensures t.Array? ==> r.Array? && |r.items| == |t.items|
    ensures t.Array? ==> forall i :: 0 <= i < |t.items| ==> r.items[i] == ApplyTemplate(root, t.items[i], b, engine, clock)
    ensures t.Number? || t.Bool? || t.Null? ==> r == t
  {
    match t
    case Object(m) => Object(map k | k in m :: ApplyTemplate(root, m[k], b, engine, clock))
    case Array(a) => Array(seq(|a|, i requires 0 <= i < |a| => ApplyTemplate(root, a[i], b, engine, clock)))
    case Str(s) =>
      (match Classify(TrimSpace(s))
       case Blank => Str("")
       case Uuid => Str(b.uuid)
       case Now =>
         (match b.now
          case Some(now) => Str(now())
          case None => Str(clock))
       case Expression(e) => EvalJSONPath(root, e, engine)
       case Literal => Str(s))
    case _ => t
  }
}

=== FILE: request_api.dfy ===
/** request_api.go: the request-bound entry points, which default the body
    cap, capture the body, build the root and hand it to the evaluator or
    the template walk. */
module RequestApi {
  import opened Wrappers
  import opened JsonValue
  import opened Remap
  import opened HttpRequest
  import opened TemplateFacts
  import Int64

  /** `RequestOptions`; `maxBodyBytes` is an `int64`. */
  datatype RequestOptions = RequestOptions(maxBodyBytes: int)

  /** The cap `RequestOptions.maxBodyBytesOrDefault` falls back on: 1 MiB. */
  const DefaultMaxBodyBytes: int := 1024 * 1024

  predicate ValidOptions(opts: Option<RequestOptions>) {
    opts.Some? ==> Int64.InRange(opts.value.maxBodyBytes)
  }

  /** `maxBodyBytesOrDefault`: a positive configured cap is used as is, any
      other falls back on 1 MiB; so the cap is always a positive `int64`, as
      CaptureRequestBody needs. */
  function MaxBodyBytesOrDefault(o: RequestOptions): (n: int)
    requires Int64.InRange(o.maxBodyBytes)
    ensures 0 < n <= Int64.MaxInt64
    ensures o.maxBodyBytes > 0 ==> n == o.maxBodyBytes
    ensures o.maxBodyBytes <= 0 ==> n == DefaultMaxBodyBytes
  {
    if o.maxBodyBytes <= 0 then DefaultMaxBodyBytes else o.maxBodyBytes
  }

  /** The cap the facade uses: nil options are the zero options. */
  function EffectiveCap(opts: Option<RequestOptions>): (n: int)
    requires ValidOptions(opts)
    ensures 0 < n <= Int64.MaxInt64
    ensures opts.None? ==> n == DefaultMaxBodyBytes
    ensures opts.Some? ==> n == MaxBodyBytesOrDefault(opts.value)
  {
    MaxBodyBytesOrDefault(if opts.Some? then opts.value else RequestOptions(0))
  }

  /** What `RootFromRequest` returns, with the request as the call leaves it. */
  datatype RootResult = RootResult(
    root: map<string, Json>,
    present: bool,
    body: seq<byte>,
    truncated: bool,
    request: Option<Request>)

  /** `RootFromRequest`: captures the body under the effective cap and builds
      the root from exactly the captured bytes, returning the capture's three
      results unchanged. Because the cap is positive, a request with a body
      is left with a slot that re-reads as exactly those bytes. */
  function RootFromRequest(r: Option<Request>, opts: Option<RequestOptions>, decode: Decoder): (res: RootResult)
    requires ValidOptions(opts)
    requires r.Some? ==> LowerKeysDistinct(r.value.header)
    ensures var c := CaptureRequestBody(r, EffectiveCap(opts));
      res.present == c.present && res.body == c.body && res.truncated == c.truncated && res.request == c.request
    ensures res.root == RequestRoot(r, res.body, decode)
    ensures |res.body| <= EffectiveCap(opts)
    ensures res.present ==> res.request == Some(r.value.(body := Some(Stream(res.body, false))))
    ensures !res.present ==> res.request == r && res.body == []
  {
    var c := CaptureRequestBody(r, EffectiveCap(opts));
    CaptureKeepsRoot(r, EffectiveCap(opts), c.body, decode);
    RootResult(RequestRoot(c.request, c.body, decode), c.present, c.body, c.truncated, c.request)
  }

  /** `EvalJSONPathFromRequest`: the expression evaluated against the root of
      the request as it arrived, with the body bytes captured under the
      effective cap; a request with a body is left holding exactly those
      bytes. */
  function EvalJSONPathFromRequest(r: Option<Request>, expr: string, opts: Option<RequestOptions>,
                                   decode: Decoder, engine: Engine): (out: (Json, Option<Request>))
    requires ValidOptions(opts)
    requires r.Some? ==> LowerKeysDistinct(r.value.header)
    ensures var body := CaptureRequestBody(r, EffectiveCap(opts)).body;
      out.0 == EvalJSONPath(Object(RequestRoot(r, body, decode)), expr, engine)
      && (r.Some? && r.value.body.Some? ==> out.1 == Some(r.value.(body := Some(Stream(body, false)))))
      && (r.None? || r.value.body.None? ==> out.1 == r)
  {
    var res := RootFromRequest(r, opts, decode);
    (EvalJSONPath(Object(res.root), expr, engine), res.request)
  }

  /** `ApplyTemplateFromRequest`: the template applied against the root of the
      request as it arrived, with the body bytes captured under the effective
      cap; the request is left as EvalJSONPathFromRequest leaves it. */
  function ApplyTemplateFromRequest(r: Option<Request>, template: Json, builtins: Builtins,
                                    opts: Option<RequestOptions>, decode: Decoder, engine: Engine,
                                    clock: string): (out: (Json, Option<Request>))
    requires ValidOptions(opts)
    requires r.Some? ==> LowerKeysDistinct(r.value.header)
    ensures var body := CaptureRequestBody(r, EffectiveCap(opts)).body;
      out.0 == ApplyTemplate(Object(RequestRoot(r, body, decode)), template, builtins, engine, clock)
      && (r.Some? && r.value.body.Some? ==> out.1 == Some(r.value.(body := Some(Stream(body, false)))))
      && (r.None? || r.value.body.None? ==> out.1 == r)
  {
    var res := RootFromRequest(r, opts, decode);
    (ApplyTemplate(Object(res.root), template, builtins, engine, clock), res.request)
  }

  /** A template without JSONPath expressions gives the same output for every
      request, options, decoder and engine. */
  lemma TemplateWithoutExpressionsIgnoresRequest(r: Option<Request>, r': Option<Request>, template: Json,
                                                 builtins: Builtins, opts: Option<RequestOptions>,
                                                 opts': Option<RequestOptions>, decode: Decoder,
                                                 decode': Decoder, engine: Engine, engine': Engine, clock: string)
    requires ValidOptions(opts) && ValidOptions(opts')
    requires r.Some? ==> LowerKeysDistinct(r.value.header)
    requires r'.Some? ==> LowerKeysDistinct(r'.value.header)
    requires NoExpressions(template)
    ensures ApplyTemplateFromRequest(r, template, builtins, opts, decode, engine, clock).0
         == ApplyTemplateFromRequest(r', template, builtins, opts', decode', engine', clock).0
  {
    var root := Object(RootFromRequest(r, opts, decode).root);
    var root' := Object(RootFromRequest(r', opts', decode').root);
    ApplyTemplateIgnoresRoot(root, root', template, builtins, engine, engine', clock);
  }
}

=== FILE: scenarios.dfy ===
/** The scenarios of remap_test.go, proved against the model. The JSONPath
    engine is replaced by MemberPath, a stand-in that only understands member
    paths `$.a.b…`, and the JSON decoder by a table with one document. */
module Scenarios {
  import opened Wrappers
  import opened JsonValue
  import opened Text
  import opened Remap
  import opened TemplateFacts
  import opened HttpRequest
  import opened RequestApi

  /** Position of the first '.' in `s`, or `|s|`. */
  function DotIndex(s: string): (i: nat)
    ensures i <= |s|
    ensures i < |s| ==> s[i] == '.'
    ensures forall j :: 0 <= j < i ==> s[j] != '.'
  {
    if |s| == 0 || s[0] == '.' then 0 else 1 + DotIndex(s[1..])
  }

  /** `s` cut at every '.'. */
  function SplitDots(s: string): (parts: seq<string>)
    ensures |parts| >= 1
    decreases |s|
  {
    var i := DotIndex(s);
    if i == |s| then [s] else [s[..i]] + SplitDots(s[i + 1..])
  }

  /** Follows object members, failing at a missing member or a non-object. */
  function Members(doc: Json, path: seq<string>): Option<Json> {
    if |path| == 0 then Some(doc)
    else if doc.Object? && path[0] in doc.fields then Members(doc.fields[path[0]], path[1..])
    else None
  }

  /** The stand-in engine: `$` is the document, `$.a.b` its member `a`'s
      member `b`; a missing member is an error, as in the real engine. */
  function MemberPath(expr: string, doc: Json): Result<seq<Json>, string> {
    if expr == "$" then Success([doc])
    else if |expr| < 2 || expr[..2] != "$." then Failure("unsupported expression")
    else
      match Members(doc, SplitDots(expr[2..]))
      case Some(v) => Success([v])
      case None => Failure("member not found")
  }

  predicate NoDot(s: string) {
    forall j :: 0 <= j < |s| ==> s[j] != '.'
  }

  lemma SplitNoDot(a: string)
    requires NoDot(a)
    ensures SplitDots(a) == [a]
  {
    assert DotIndex(a) == |a|;
  }

  lemma SplitTwo(a: string, b: string)
    requires NoDot(a) && NoDot(b)
    ensures SplitDots(a + "." + b) == [a, b]
  {
    var s := a + "." + b;
    assert s[|a|] == '.';
    assert forall j :: 0 <= j < |a| ==> s[j] == a[j];
    assert DotIndex(s) == |a|;
    assert s[..|a|] == a && s[|a| + 1..] == b;
    SplitNoDot(b);
  }

  /** `$.a.b` on a document that has member `a` with member `b`. */
  lemma MemberPathTwo(doc: Json, a: string, b: string)
    requires NoDot(a) && NoDot(b)
    requires doc.Object? && a in doc.fields && doc.fields[a].Object? && b in doc.fields[a].fields
    ensures MemberPath("$." + a + "." + b, doc) == Success([doc.fields[a].fields[b]])
  {
    var e := "$." + a + "." + b;
    assert |e| >= 3 && e != "$";
    assert e[..2] == "$." && e[2..] == a + "." + b;
    SplitTwo(a, b);
    assert [a, b][1..] == [b];
    assert Members(doc, [a, b]) == Members(doc.fields[a], [b]);
    assert Members(doc.fields[a], [b]) == Members(doc.fields[a].fields[b], []);
  }

  /** A template string `$.a.b` evaluates to member `b` of member `a` of the root. */
  lemma TemplateMemberPath(root: Json, a: string, b: string, builtins: Builtins, clock: string)
    requires NoDot(a) && NoDot(b) && |b| > 0 && !IsSpace(b[|b| - 1])
    requires root.Object? && a in root.fields && root.fields[a].Object? && b in root.fields[a].fields
    ensures ApplyTemplate(root, Str("$." + a + "." + b), builtins, MemberPath, clock) == root.fields[a].fields[b]
  {
    var e := "$." + a + "." + b;
    assert "" + e + "" == e;
    ApplyTemplateExpressionPadded(root, "", e, "", builtins, MemberPath, clock);
    MemberPathTwo(root, a, b);
  }

  /** The root, template and builtins of TestApplyTemplate_JSONPathAndBuiltins. */
  const TemplateRoot: Json := Object(map[
    "headers" := Object(map["x" := Str("1")]),
    "cookies" := Object(map["sid" := Str("abc")])])
  const TemplateUnderTest: Json :=
    Object(map["x" := Str("$.headers.x"), "sid" := Str("$.cookies.sid"), "uuid" := Str("uuid()")])
  const TestBuiltins: Builtins := Builtins("u-1", Some(() => "now"))

  lemma TemplateHeaderLeaf(clock: string)
    ensures ApplyTemplate(TemplateRoot, Str("$.headers.x"), TestBuiltins, MemberPath, clock) == Str("1")
  {
    assert "$.headers.x" == "$." + "headers" + "." + "x";
    TemplateMemberPath(TemplateRoot, "headers", "x", TestBuiltins, clock);
  }

  lemma TemplateCookieLeaf(clock: string)
    ensures ApplyTemplate(TemplateRoot, Str("$.cookies.sid"), TestBuiltins, MemberPath, clock) == Str("abc")
  {
    assert "$.cookies.sid" == "$." + "cookies" + "." + "sid";
    TemplateMemberPath(TemplateRoot, "cookies", "sid", TestBuiltins, clock);
  }

  lemma TemplateUuidLeaf(root: Json, b: Builtins, engine: Engine, clock: string)
    ensures ApplyTemplate(root, Str("uuid()"), b, engine, clock) == Str(b.uuid)
  {
    assert "" + "uuid()" + "" == "uuid()";
    ApplyTemplateUuidPadded(root, "", "", b, engine, clock);
  }

  /** An object template evaluates to `Object(e)` when every member does. */
  lemma ApplyTemplateMembers(root: Json, m: map<string, Json>, e: map<string, Json>,
                             b: Builtins, engine: Engine, clock: string)
    requires m.Keys == e.Keys
    requires forall k :: k in m ==> ApplyTemplate(root, m[k], b, engine, clock) == e[k]
    ensures ApplyTemplate(root, Object(m), b, engine, clock) == Object(e)
  {
    var r := ApplyTemplate(root, Object(m), b, engine, clock);
    assert r.fields == e;
  }

  /** `f` maps every member of `m` to the member of `e` under the same key. */
  ghost predicate Pointwise(f: Json -> Json, m: map<string, Json>, e: map<string, Json>) {
    m.Keys == e.Keys && forall j :: j in m ==> f(m[j]) == e[j]
  }

  lemma PointwiseUpdate(f: Json -> Json, m: map<string, Json>, e: map<string, Json>, k: string, t: Json, v: Json)
    requires Pointwise(f, m, e) && f(t) == v
    ensures Pointwise(f, m[k := t], e[k := v])
  {
  }

  /** TestApplyTemplate_JSONPathAndBuiltins: expressions resolve against the
      root and `uuid()` takes the builtin's value. */
  lemma TemplateScenario(clock: string)
    ensures ApplyTemplate(TemplateRoot, TemplateUnderTest, TestBuiltins, MemberPath, clock)
         == Object(map["x" := Str("1"), "sid" := Str("abc"), "uuid" := Str("u-1")])
  {
    var f := x => ApplyTemplate(TemplateRoot, x, TestBuiltins, MemberPath, clock);
    TemplateHeaderLeaf(clock);
    PointwiseUpdate(f, map[], map[], "x", Str("$.headers.x"), Str("1"));
    TemplateCookieLeaf(clock);
    PointwiseUpdate(f, map["x" := Str("$.headers.x")], map["x" := Str("1")],
                    "sid", Str("$.cookies.sid"), Str("abc"));
    TemplateUuidLeaf(TemplateRoot, TestBuiltins, MemberPath, clock);
    PointwiseUpdate(f, map["x" := Str("$.headers.x"), "sid" := Str("$.cookies.sid")], map["x" := Str("1"), "sid" := Str("abc")],
                    "uuid", Str("uuid()"), Str("u-1"));
    ApplyTemplateMembers(TemplateRoot, TemplateUnderTest.fields, map["x" := Str("1"), "sid" := Str("abc"), "uuid" := Str("u-1")],
                         TestBuiltins, MemberPath, clock);
  }

  /** "hello" as bytes. */
  const Hello: seq<byte> := [104, 101, 108, 108, 111]

  /** TestCaptureRequestBody_RestoresBody: a cap of 3 keeps "hel" and reports
      truncation; a second capture with a cap of 10 re-reads "hel". */
  lemma CaptureScenario()
    ensures var r := Some(Request("POST", "example.com", None, map[], [], Some(Stream(Hello, false))));
      var c1 := CaptureRequestBody(r, 3);
      var c2 := CaptureRequestBody(c1.request, 10);
      && c1.body == [104, 101, 108] && c1.truncated
      && c2.body == [104, 101, 108] && !c2.truncated
  {
    var r := Some(Request("POST", "example.com", None, map[], [], Some(Stream(Hello, false))));
    assert Hello[..3] == [104, 101, 108];
    CaptureTwice(r, 3, 10);
  }

  /** The request of TestEvalJSONPathFromRequest_UsesCanonicalRoot: a POST to
      `/test?q=1&q=2` with header `X-Test: abc`, cookie `sid=123` and body
      `{"a":1}`. Adding the cookie writes it into the header map as
      `Cookie: sid=123`, from which `r.Cookies()` reads it back. */
  const RequestBody: seq<byte> := [123, 34, 97, 34, 58, 49, 125]
  const TestRequest: Request := Request(
    "POST", "example.com", Some(Url("/test", map["q" := ["1", "2"]])),
    map["X-Test" := ["abc"], "Cookie" := ["sid=123"]], [Some(Cookie("sid", "123"))], Some(Stream(RequestBody, false)))

  /** A decoder that knows the one document of the scenario. */
  const TestDecoder: Decoder := b => if b == RequestBody then Some(Object(map["a" := Number("1")])) else None

  /** The scenario's request keeps its body whole under the default cap. */
  lemma ScenarioCapture()
    ensures LowerKeysDistinct(TestRequest.header)
    ensures var res := RootFromRequest(Some(TestRequest), None, TestDecoder);
      res.root == RequestRoot(Some(TestRequest), RequestBody, TestDecoder)
  {
    ScenarioHeaderNames();
    assert EffectiveCap(None) == DefaultMaxBodyBytes;
    assert RequestBody[..7] == RequestBody;
  }

  lemma ScenarioHeaderNames()
    ensures LowerKeysDistinct(TestRequest.header)
  {
    assert ToLower("X-Test") == "x-test" && ToLower("Cookie") == "cookie";
    TwoKeysDistinct("X-Test", ["abc"], "Cookie", ["sid=123"]);
  }

  /** Two header names that differ once lower-cased. */
  lemma TwoKeysDistinct(k1: string, v1: seq<string>, k2: string, v2: seq<string>)
    requires ToLower(k1) != ToLower(k2)
    ensures LowerKeysDistinct(map[k1 := v1, k2 := v2])
  {
  }

  /** A map with the single key `k` is the display `map[k := m[k]]`. */
  lemma SingleKey(m: map<string, Json>, k: string)
    requires m.Keys == {k}
    ensures m == map[k := m[k]]
  {
  }

  /** A request with two single-valued headers whose names differ once
      lower-cased: each is found under its lower-cased name, and there is
      nothing else. */
  lemma HeadersOfTwo(r: Request, k1: string, v1: string, k2: string, v2: string,
                     bodyBytes: seq<byte>, decode: Decoder)
    requires r.header == map[k1 := [v1], k2 := [v2]] && ToLower(k1) != ToLower(k2)
    ensures LowerKeysDistinct(r.header)
    ensures RequestRoot(Some(r), bodyBytes, decode)["headers"]
         == Object(map[ToLower(k1) := Str(v1), ToLower(k2) := Str(v2)])
  {
    TwoKeysDistinct(k1, [v1], k2, [v2]);
    LowerNamesOfTwo(k1, [v1], k2, [v2]);
    TwoKeys(HeaderMaps(r.header).first, ToLower(k1), ToLower(k2));
  }

  /** A map with the two keys `k1` and `k2` is the display of its two entries. */
  lemma TwoKeys(m: map<string, Json>, k1: string, k2: string)
    requires m.Keys == {k1, k2}
    ensures m == map[k1 := m[k1], k2 := m[k2]]
  {
  }

  lemma LowerNamesOfTwo(k1: string, v1: seq<string>, k2: string, v2: seq<string>)
    requires |v1| > 0 && |v2| > 0 && k1 != k2
    ensures LowerNames(map[k1 := v1, k2 := v2]) == {ToLower(k1), ToLower(k2)}
  {
    var h := map[k1 := v1, k2 := v2];
    forall x | x in LowerNames(h) ensures x == ToLower(k1) || x == ToLower(k2) {
      var k' :| k' in h && |h[k']| > 0 && ToLower(k') == x;
    }
    assert k1 in h && |h[k1]| > 0 && k2 in h && |h[k2]| > 0;
  }

  /** A request whose query has one name. */
  lemma QueryOfOne(r: Request, path: string, k: string, vs: seq<string>, bodyBytes: seq<byte>, decode: Decoder)
    requires r.url == Some(Url(path, map[k := vs])) && |vs| > 0
    requires LowerKeysDistinct(r.header)
    ensures var root := RequestRoot(Some(r), bodyBytes, decode);
      && root["query"] == Object(map[k := Str(vs[0])])
      && root["query_all"] == Object(map[k := StringArray(vs)])
  {
    var qm := QueryMaps(r.url);
    assert qm.first.Keys == {k};
    SingleKey(qm.first, k);
    SingleKey(qm.all, k);
  }

  lemma ScenarioHeaders()
    ensures LowerKeysDistinct(TestRequest.header)
    ensures RequestRoot(Some(TestRequest), RequestBody, TestDecoder)["headers"]
         == Object(map["x-test" := Str("abc"), "cookie" := Str("sid=123")])
  {
    assert ToLower("X-Test") == "x-test" && ToLower("Cookie") == "cookie";
    HeadersOfTwo(TestRequest, "X-Test", "abc", "Cookie", "sid=123", RequestBody, TestDecoder);
  }

  lemma ScenarioQuery()
    ensures LowerKeysDistinct(TestRequest.header)
    ensures var root := RequestRoot(Some(TestRequest), RequestBody, TestDecoder);
      && root["query"] == Object(map["q" := Str("1")])
      && root["query_all"] == Object(map["q" := Array([Str("1"), Str("2")])])
  {
    ScenarioHeaderNames();
    QueryOfOne(TestRequest, "/test", "q", ["1", "2"], RequestBody, TestDecoder);
    StringArrayTwo("1", "2");
  }

  lemma StringArrayTwo(a: string, b: string)
    ensures StringArray([a, b]) == Array([Str(a), Str(b)])
  {
    assert StringArray([a, b]).items == [Str(a), Str(b)];
  }

  lemma ScenarioCookiesAndBody()
    ensures LowerKeysDistinct(TestRequest.header)
    ensures var root := RequestRoot(Some(TestRequest), RequestBody, TestDecoder);
      && root["cookies"] == Object(map["sid" := Str("123")])
      && root["body"] == Object(map["a" := Number("1")])
  {
    ScenarioHeaderNames();
    assert !IsSpaceByte(RequestBody[0]);
    assert TestDecoder(RequestBody) == Some(Object(map["a" := Number("1")]));
  }

  /** TestEvalJSONPathFromRequest_UsesCanonicalRoot, on the root: the headers
      sit under their lower-cased names (the cookie header included), the
      cookie under its name, the query name under its first value and under
      all its values, and the decoded body under "body". */
  lemma ScenarioRoot()
    ensures LowerKeysDistinct(TestRequest.header)
    ensures var root := RootFromRequest(Some(TestRequest), None, TestDecoder).root;
      && root["headers"] == Object(map["x-test" := Str("abc"), "cookie" := Str("sid=123")])
      && root["cookies"] == Object(map["sid" := Str("123")])
      && root["query"] == Object(map["q" := Str("1")])
      && root["query_all"] == Object(map["q" := Array([Str("1"), Str("2")])])
      && root["body"] == Object(map["a" := Number("1")])
  {
    ScenarioCapture();
    ScenarioHeaders();
    ScenarioQuery();
    ScenarioCookiesAndBody();
  }
}

=== FILE: template_facts.dfy ===
/** Properties of the template walk of remap.go: how string leaves are
    dispatched, what the walk preserves, and when it is the identity. */
module TemplateFacts {
  import opened JsonValue
  import opened Text
  import opened Remap

  /** An expression is never mistaken for a builtin. */
  lemma DollarIsNoBuiltin(e: string)
    requires HasPrefix(e, "$")
    ensures e != "" && e != "uuid()" && e != "now()"
  {
    assert e[..1][0] == e[0];
  }

  /** The classification in terms of the trimmed text, each class exactly
      characterised. */
  lemma ClassifyCases(s: string)
    ensures Classify(TrimSpace(s)) == Blank <==> AllSpace(s)
    ensures Classify(TrimSpace(s)) == Uuid <==> TrimSpace(s) == "uuid()"
    ensures Classify(TrimSpace(s)) == Now <==> TrimSpace(s) == "now()"
    ensures Classify(TrimSpace(s)).Expression? <==> HasPrefix(TrimSpace(s), "$")
    ensures Classify(TrimSpace(s)).Expression? ==> Classify(TrimSpace(s)).expr == TrimSpace(s)
    ensures IsLiteral(s) <==> !AllSpace(s) && TrimSpace(s) != "uuid()" && TrimSpace(s) != "now()"
                              && !HasPrefix(TrimSpace(s), "$")
  {
    var e := TrimSpace(s);
    if HasPrefix(e, "$") {
      DollarIsNoBuiltin(e);
    }
  }

  /** String leaves: the evaluator receives the trimmed text, and a literal
      comes back untrimmed. */
  lemma ApplyStringDispatch(root: Json, s: string, b: Builtins, engine: Engine, clock: string)
    ensures var r := ApplyTemplate(root, Str(s), b, engine, clock);
      && (AllSpace(s) ==> r == Str(""))
      && (TrimSpace(s) == "uuid()" ==> r == Str(b.uuid))
      && (TrimSpace(s) == "now()" && b.now.Some? ==> r == Str(b.now.value()))
      && (TrimSpace(s) == "now()" && b.now.None? ==> r == Str(clock))
      && (HasPrefix(TrimSpace(s), "$") ==> r == EvalJSONPath(root, TrimSpace(s), engine))
      && (IsLiteral(s) ==> r == Str(s))
  {
    ClassifyCases(s);
    ApplyLeaf(root, s, b, engine, clock);
  }

  /** `r` has the shape of template `t`: objects with the same keys, arrays of
      the same length, member by member; a string leaf may become anything;
      every other leaf is unchanged. */
  ghost predicate SameShape(t: Json, r: Json) {
    match t
    case Object(m) =>
      r.Object? && r.fields.Keys == m.Keys && forall k :: k in m ==> SameShape(m[k], r.fields[k])
    case Array(a) =>
      r.Array? && |r.items| == |a| && forall i :: 0 <= i < |a| ==> SameShape(a[i], r.items[i])
    case Str(_) => true
    case _ => r == t
  }

  lemma {:induction false} ApplyTemplatePreservesShape(root: Json, t: Json, b: Builtins, engine: Engine, clock: string)
    ensures SameShape(t, ApplyTemplate(root, t, b, engine, clock))
  {
    var r := ApplyTemplate(root, t, b, engine, clock);
    match t
    case Object(m) =>
      forall k | k in m ensures SameShape(m[k], r.fields[k]) {
        ApplyTemplatePreservesShape(root, m[k], b, engine, clock);
      }
    case Array(a) =>
      forall i | 0 <= i < |a| ensures SameShape(a[i], r.items[i]) {
        ApplyTemplatePreservesShape(root, a[i], b, engine, clock);
      }
    case _ =>
  }

  /** Every string leaf of `t` is a literal. */
  ghost predicate LiteralsOnly(t: Json) {
    match t
    case Object(m) => forall k :: k in m ==> LiteralsOnly(m[k])
    case Array(a) => forall i :: 0 <= i < |a| ==> LiteralsOnly(a[i])
    case Str(s) => IsLiteral(s)
    case _ => true
  }

  /** `t` has no string leaf at all. */
  ghost predicate NoStrings(t: Json) {
    match t
    case Object(m) => forall k :: k in m ==> NoStrings(m[k])
    case Array(a) => forall i :: 0 <= i < |a| ==> NoStrings(a[i])
    case Str(_) => false
    case _ => true
  }

  /** A template whose strings are all literals evaluates to itself. */
  lemma {:induction false} ApplyTemplateLiteralsOnly(root: Json, t: Json, b: Builtins, engine: Engine, clock: string)
    requires LiteralsOnly(t)
    ensures ApplyTemplate(root, t, b, engine, clock) == t
  {
    match t
    case Object(m) =>
      var r := ApplyTemplate(root, t, b, engine, clock);
      forall k | k in m ensures r.fields[k] == m[k] {
        ApplyTemplateLiteralsOnly(root, m[k], b, engine, clock);
      }
      assert r.fields == m;
    case Array(a) =>
      var r := ApplyTemplate(root, t, b, engine, clock);
      forall i | 0 <= i < |a| ensures r.items[i] == a[i] {
        ApplyTemplateLiteralsOnly(root, a[i], b, engine, clock);
      }
      assert r.items == a;
    case Str(s) =>
      ApplyLeaf(root, s, b, engine, clock);
    case _ =>
  }

  lemma {:induction false} NoStringsIsLiteralsOnly(t: Json)
    requires NoStrings(t)
    ensures LiteralsOnly(t)
  {
    match t
    case Object(m) =>
      forall k | k in m ensures LiteralsOnly(m[k]) { NoStringsIsLiteralsOnly(m[k]); }
    case Array(a) =>
      forall i | 0 <= i < |a| ensures LiteralsOnly(a[i]) { NoStringsIsLiteralsOnly(a[i]); }
    case _ =>
  }

  /** A template with no string leaves maps to itself, whatever the root. */
  lemma ApplyTemplateWithoutStrings(root: Json, t: Json, b: Builtins, engine: Engine, clock: string)
    requires NoStrings(t)
    ensures ApplyTemplate(root, t, b, engine, clock) == t
  {
    NoStringsIsLiteralsOnly(t);
    ApplyTemplateLiteralsOnly(root, t, b, engine, clock);
  }

  /** No string leaf of `t` is a JSONPath expression. */
  ghost predicate NoExpressions(t: Json) {
    match t
    case Object(m) => forall k :: k in m ==> NoExpressions(m[k])
    case Array(a) => forall i :: 0 <= i < |a| ==> NoExpressions(a[i])
    case Str(s) => !Classify(TrimSpace(s)).Expression?
    case _ => true
  }

  /** Without JSONPath expressions the root and the engine are never consulted. */
  lemma {:induction false} ApplyTemplateIgnoresRoot(root: Json, root': Json, t: Json, b: Builtins,
                                                    engine: Engine, engine': Engine, clock: string)
    requires NoExpressions(t)
    ensures ApplyTemplate(root, t, b, engine, clock) == ApplyTemplate(root', t, b, engine', clock)
  {
    match t
    case Object(m) =>
      forall k | k in m
        ensures ApplyTemplate(root, m[k], b, engine, clock) == ApplyTemplate(root', m[k], b, engine', clock)
      {
        ApplyTemplateIgnoresRoot(root, root', m[k], b, engine, engine', clock);
      }
      MembersAgree(root, root', m, b, engine, engine', clock);
    case Array(a) =>
      forall i | 0 <= i < |a|
        ensures ApplyTemplate(root, a[i], b, engine, clock) == ApplyTemplate(root', a[i], b, engine', clock)
      {
        ApplyTemplateIgnoresRoot(root, root', a[i], b, engine, engine', clock);
      }
      ItemsAgree(root, root', a, b, engine, engine', clock);
    case Str(s) =>
      ApplyLeaf(root, s, b, engine, clock);
      ApplyLeaf(root', s, b, engine', clock);
    case _ =>
  }

  /** Two walks agree on an object when they agree on every member. */
  lemma MembersAgree(root: Json, root': Json, m: map<string, Json>, b: Builtins,
                     engine: Engine, engine': Engine, clock: string)
    requires forall k :: k in m ==> ApplyTemplate(root, m[k], b, engine, clock) == ApplyTemplate(root', m[k], b, engine', clock)
    ensures ApplyTemplate(root, Object(m), b, engine, clock) == ApplyTemplate(root', Object(m), b, engine', clock)
  {
  }

  /** Two walks agree on an array when they agree on every item. */
  lemma ItemsAgree(root: Json, root': Json, a: seq<Json>, b: Builtins,
                   engine: Engine, engine': Engine, clock: string)
    requires forall i :: 0 <= i < |a| ==> ApplyTemplate(root, a[i], b, engine, clock) == ApplyTemplate(root', a[i], b, engine', clock)
    ensures ApplyTemplate(root, Array(a), b, engine, clock) == ApplyTemplate(root', Array(a), b, engine', clock)
  {
  }

  /** White space around a trimmed text never changes its class. */
  lemma ClassifyPadded(pre: string, core: string, post: string)
    requires AllSpace(pre) && AllSpace(post) && Trimmed(core)
    ensures Classify(TrimSpace(pre + core + post)) == Classify(core)
  {
    TrimSpacePadded(pre, core, post);
  }

  /** What a string leaf evaluates to, class by class. */
  lemma ApplyLeaf(root: Json, s: string, b: Builtins, engine: Engine, clock: string)
    ensures var k := Classify(TrimSpace(s)); var r := ApplyTemplate(root, Str(s), b, engine, clock);
      && (k == Blank ==> r == Str(""))
      && (k == Uuid ==> r == Str(b.uuid))
      && (k == Now ==> r == Str(if b.now.Some? then b.now.value() else clock))
      && (k.Expression? ==> r == EvalJSONPath(root, k.expr, engine))
      && (k == Literal ==> r == Str(s))
  {
    ApplyLeafTrimmed(root, s, TrimSpace(s), b, engine, clock);
  }

  /** ApplyLeaf with the trimmed text `e` named. */
  lemma ApplyLeafTrimmed(root: Json, s: string, e: string, b: Builtins, engine: Engine, clock: string)
    requires e == TrimSpace(s)
    ensures var k := Classify(e); var r := ApplyTemplate(root, Str(s), b, engine, clock);
      && (k == Blank ==> r == Str(""))
      && (k == Uuid ==> r == Str(b.uuid))
      && (k == Now ==> r == Str(if b.now.Some? then b.now.value() else clock))
      && (k.Expression? ==> r == EvalJSONPath(root, k.expr, engine))
      && (k == Literal ==> r == Str(s))
  {
    match Classify(e)
    case Blank =>
    case Uuid =>
    case Now =>
    case Expression(_) =>
    case Literal =>
  }

  lemma ClassifyExpression(e: string)
    requires HasPrefix(e, "$")
    ensures Classify(e) == Expression(e)
  {
    DollarIsNoBuiltin(e);
  }

  lemma ClassifyLiteral(w: string)
    requires w != [] && w != "uuid()" && w != "now()" && w[0] != '$'
    ensures Classify(w) == Literal
  {
    assert !HasPrefix(w, "$") by { assert w[..1][0] == w[0]; }
  }

  /** `uuid()` is recognised whatever white space surrounds it. */
  lemma ApplyTemplateUuidPadded(root: Json, pre: string, post: string, b: Builtins, engine: Engine, clock: string)
    requires AllSpace(pre) && AllSpace(post)
    ensures ApplyTemplate(root, Str(pre + "uuid()" + post), b, engine, clock) == Str(b.uuid)
  {
    assert Trimmed("uuid()");
    ClassifyPadded(pre, "uuid()", post);
    ApplyLeaf(root, pre + "uuid()" + post, b, engine, clock);
  }

  /** So is `now()`, which takes the producer's value, or the wall clock's
      when there is no producer. */
  lemma ApplyTemplateNowPadded(root: Json, pre: string, post: string, b: Builtins, engine: Engine, clock: string)
    requires AllSpace(pre) && AllSpace(post)
    ensures ApplyTemplate(root, Str(pre + "now()" + post), b, engine, clock)
            == Str(if b.now.Some? then b.now.value() else clock)
  {
    assert Trimmed("now()");
    ClassifyPadded(pre, "now()", post);
    ApplyLeaf(root, pre + "now()" + post, b, engine, clock);
  }

  /** A padded expression is evaluated without its padding. */
  lemma ApplyTemplateExpressionPadded(root: Json, pre: string, e: string, post: string,
                                      b: Builtins, engine: Engine, clock: string)
    requires AllSpace(pre) && AllSpace(post)
    requires e != [] && e[0] == '$' && !IsSpace(e[|e| - 1])
    ensures ApplyTemplate(root, Str(pre + e + post), b, engine, clock) == EvalJSONPath(root, e, engine)
  {
    assert HasPrefix(e, "$") by { assert e[..1] == "$"; }
    ClassifyExpression(e);
    ClassifyPadded(pre, e, post);
    ApplyLeaf(root, pre + e + post, b, engine, clock);
  }

  /** A padded literal comes back with its padding. */
  lemma ApplyTemplateLiteralKeepsPadding(root: Json, pre: string, w: string, post: string,
                                         b: Builtins, engine: Engine, clock: string)
    requires AllSpace(pre) && AllSpace(post)
    requires w != [] && Trimmed(w) && w != "uuid()" && w != "now()" && w[0] != '$'
    ensures ApplyTemplate(root, Str(pre + w + post), b, engine, clock) == Str(pre + w + post)
  {
    ClassifyLiteral(w);
    ClassifyPadded(pre, w, post);
    ApplyLeaf(root, pre + w + post, b, engine, clock);
  }
}

=== FILE: text.dfy ===
/** The string helpers the core relies on: Go's `strings.TrimSpace`,
    `strings.HasPrefix`, `strings.ToLower` (ASCII letters only) and the
    whitespace test of `bytes.TrimSpace` (ASCII bytes only). */
module Text {
  import opened JsonValue

  /** Go's `unicode.IsSpace`: the characters with the Unicode White_Space
      property, that is '\t' through '\r', the space, and the wide ones. */
  predicate IsSpace(c: char) {
    ('\t' <= c <= '\r') || c == ' ' || ('\U{0085}' <= c && IsWideSpace(c))
  }

  /** The white space above the Latin-1 control range. */
  predicate IsWideSpace(c: char) {
    || c == '\U{0085}' || c == '\U{00A0}' || c == '\U{1680}'
    || ('\U{2000}' <= c <= '\U{200A}')
    || c == '\U{2028}' || c == '\U{2029}' || c == '\U{202F}' || c == '\U{205F}' || c == '\U{3000}'
  }

  predicate AllSpace(s: string) {
    forall i :: 0 <= i < |s| ==> IsSpace(s[i])
  }

  /** No white space at either end (vacuously true of ""). */
  predicate Trimmed(s: string) {
    s == [] || (!IsSpace(s[0]) && !IsSpace(s[|s| - 1]))
  }

  /** Drops the leading white space: what is dropped is all white space and
      what is kept starts with a non-space character. */
  function TrimLeft(s: string): (r: string)
    ensures |r| <= |s| && r == s[|s| - |r|..]
    ensures AllSpace(s[..|s| - |r|])
    ensures r == [] || !IsSpace(r[0])
    ensures r == [] <==> AllSpace(s)
  {
    if |s| > 0 && IsSpace(s[0]) then
      var r := TrimLeft(s[1..]);
      TrimLeftStep(s, r);
      r
    else s
  }

  /** What trimming the tail of `s` gives is what trimming `s` gives, when
      `s` starts with a space. */
  lemma TrimLeftStep(s: string, r: string)
    requires |s| > 0 && IsSpace(s[0])
    requires |r| <= |s| - 1 && r == s[1..][|s| - 1 - |r|..]
    requires AllSpace(s[1..][..|s| - 1 - |r|])
    requires r == [] <==> AllSpace(s[1..])
    ensures r == s[|s| - |r|..]
    ensures AllSpace(s[..|s| - |r|])
    ensures r == [] <==> AllSpace(s)
  {
    assert s[1..][|s| - 1 - |r|..] == s[|s| - |r|..];
    SpaceThenAllSpace(s, |s| - |r|);
  }

  /** A space followed by spaces. */
  lemma SpaceThenAllSpace(s: string, n: nat)
    requires 0 < n <= |s| && IsSpace(s[0]) && AllSpace(s[1..][..n - 1])
    ensures AllSpace(s[..n])
    ensures AllSpace(s) <==> AllSpace(s[1..])
  {
    assert forall i :: 0 < i < n ==> s[..n][i] == s[1..][..n - 1][i - 1];
    assert forall i :: 0 < i < |s| ==> s[i] == s[1..][i - 1];
  }

  /** Spaces followed by a space. */
  lemma AllSpaceThenSpace(s: string, n: nat)
    requires n < |s| && IsSpace(s[|s| - 1]) && AllSpace(s[..|s| - 1][n..])
    ensures AllSpace(s[n..])
    ensures AllSpace(s) <==> AllSpace(s[..|s| - 1])
  {
    assert forall j :: 0 <= j < |s| - 1 - n ==> s[n..][j] == s[..|s| - 1][n..][j];
    assert forall i :: 0 <= i < |s| - 1 ==> s[i] == s[..|s| - 1][i];
  }

  /** Drops the trailing white space, symmetrically to TrimLeft. */
  function TrimRight(s: string): (r: string)
    ensures |r| <= |s| && r == s[..|r|]
    ensures AllSpace(s[|r|..])
    ensures r == [] || !IsSpace(r[|r| - 1])
    ensures r == [] <==> AllSpace(s)
  {
    if |s| > 0 && IsSpace(s[|s| - 1]) then
      var r := TrimRight(s[..|s| - 1]);
      AllSpaceThenSpace(s, |r|);
      r
    else s
  }

  /** Go's `strings.TrimSpace`: the infix of `s` left after removing white
      space at both ends (TrimSpaceIsInfix). It is empty exactly when `s` is
      all white space. */
  function TrimSpace(s: string): (r: string)
    ensures Trimmed(r)
    ensures r == [] <==> AllSpace(s)
    ensures |r| <= |s|
  {
    TrimRight(TrimLeft(s))
  }

  /** The trimmed text is an infix of `s` with only white space before and
      after it. */
  lemma TrimSpaceIsInfix(s: string)
    ensures var r := TrimSpace(s);
      exists i :: 0 <= i <= |s| - |r| && r == s[i..i + |r|] && AllSpace(s[..i]) && AllSpace(s[i + |r|..])
  {
    InfixOfTrims(s, TrimLeft(s), TrimSpace(s));
  }

  /** A prefix of a suffix is an infix, and the white space cut off either end
      is white space of `s`. */
  lemma InfixOfTrims(s: string, l: string, r: string)
    requires |l| <= |s| && l == s[|s| - |l|..] && AllSpace(s[..|s| - |l|])
    requires |r| <= |l| && r == l[..|r|] && AllSpace(l[|r|..])
    ensures exists i :: 0 <= i <= |s| - |r| && r == s[i..i + |r|] && AllSpace(s[..i]) && AllSpace(s[i + |r|..])
  {
    var i := |s| - |l|;
    assert s[i + |r|..] == l[|r|..];
    assert r == s[i..i + |r|];
  }

  /** `strings.HasPrefix`. */
  predicate HasPrefix(s: string, prefix: string) {
    |prefix| <= |s| && s[..|prefix|] == prefix
  }

  /** `strings.ToLower` restricted to ASCII: 'A'..'Z' become 'a'..'z'. */
  function LowerChar(c: char): char {
    if 'A' <= c <= 'Z' then (c as int + 32) as char else c
  }

  function ToLower(s: string): (r: string)
    ensures |r| == |s|
    ensures forall i :: 0 <= i < |s| ==> r[i] == LowerChar(s[i])
  {
    seq(|s|, i requires 0 <= i < |s| => LowerChar(s[i]))
  }

  /** Lower-casing twice is lower-casing once. */
  lemma ToLowerIdempotent(s: string)
    ensures ToLower(ToLower(s)) == ToLower(s)
  {
  }

  /** The white space `bytes.TrimSpace` removes, ASCII part: tab, line feed,
      vertical tab, form feed, carriage return and space. */
  predicate IsSpaceByte(b: byte) {
    b == 32 || 9 <= b <= 13
  }

  predicate AllSpaceBytes(bs: seq<byte>) {
    forall i :: 0 <= i < |bs| ==> IsSpaceByte(bs[i])
  }

  lemma AllSpaceConcat(a: string, b: string)
    ensures AllSpace(a + b) <==> AllSpace(a) && AllSpace(b)
  {
    assert forall i :: 0 <= i < |a| ==> (a + b)[i] == a[i];
    assert forall i :: 0 <= i < |b| ==> (a + b)[|a| + i] == b[i];
  }

  /** Trimming strips exactly the padding: surrounding a trimmed core with
      white space on either side and trimming gives back the core. */
  lemma {:induction false} TrimSpacePadded(pre: string, core: string, post: string)
    requires AllSpace(pre) && AllSpace(post) && Trimmed(core)
    ensures TrimSpace(pre + core + post) == core
  {
    if core == [] {
      AllSpaceConcat(pre, post);
      assert pre + core + post == pre + post;
    } else {
      assert pre + core + post == pre + (core + post);
      TrimLeftPadded(pre, core + post);
      TrimRightPadded(core, post);
    }
  }

  lemma {:induction false} TrimLeftPadded(pre: string, rest: string)
    requires AllSpace(pre) && rest != [] && !IsSpace(rest[0])
    ensures TrimLeft(pre + rest) == rest
  {
    if pre != [] {
      assert (pre + rest)[0] == pre[0];
      assert (pre + rest)[1..] == pre[1..] + rest;
      TrimLeftPadded(pre[1..], rest);
    } else {
      assert pre + rest == rest;
    }
  }

  lemma {:induction false} TrimRightPadded(core: string, post: string)
    requires AllSpace(post) && core != [] && !IsSpace(core[|core| - 1])
    ensures TrimRight(core + post) == core
  {
    var s := core + post;
    if post != [] {
      var post' := post[..|post| - 1];
      assert s[|s| - 1] == post[|post| - 1];
      assert s[..|s| - 1] == core + post';
      TrimRightPadded(core, post');
    } else {
      assert s == core;
    }
  }
}

=== FILE: wrappers.dfy ===
/** Option and Result, the failure-carrying datatypes the model uses in place
    of Go's `(value, ok)` and `(value, err)` return pairs. */
module Wrappers {

  datatype Option<+T> = None | Some(value: T)

  datatype Result<+R, +E> = Success(value: R) | Failure(error: E)
}
